=== FILE: README.md ===
# Venue availability and conflict engine, in Dafny

A model of the booking core of a venue-reservation backend. Owners register
venues and block date ranges; customers book date ranges. Before anything is
stored, an availability check looks for conflicts of the requested range
against two collections of the same venue:

- active bookings (status `confirmed` or `pending`), under a **strict**
  overlap test (`b.start < end && b.end > start`): ranges that only touch do
  not conflict;
- blocked periods, under an **inclusive** overlap test
  (`p.start <= end && p.end >= start`): ranges that touch do conflict.

Booking creation rejects on any conflict. Otherwise it looks up the venue and
prices the stay in whole days rounded up. It then saves a `confirmed`
booking. Date blocking rejects only on booking conflicts, and then saves the
blocked period.

The model is functional. The three collections are sequences in a `Store`
value, and every operation returns either a new store with the created
record or an error. On an error the store is unchanged. Instants are integer
milliseconds. A new venue keeps an id its request body supplies, and the
insert is refused if a stored venue already has that id. Without one, the
venue gets an id that no stored venue, booking or blocked period mentions.
Because blocking never looks the venue up, a supplied id can name blocked
periods stored before the venue existed, and the venue inherits them
(`VenueController.SuppliedIdInheritsBlocks`).

Modules follow the source layout:

- `Records`: the schemas in `models/`. This covers the record shapes, the
  status enumeration and its default, and save-time validation. Validation
  returns the set of failing schema paths.
- `VenueService`: the availability check of `services/venueService.js`.
- `BookingController`: `createBooking`, with its ceiling-day pricing, and
  `getUserBookings`.
- `VenueController`: `createVenue`, `blockDates` and `getVenueBookings`.
- `Database`: the store, the venue lookup, fresh venue ids and the outcome
  type.
- `Listing`: ordering by start date.
- `Seqs`: order-preserving filtering.
- `Options`: optional values.
- `Invariants`: the store invariants that sequential handling of requests
  preserves.

Where the code's order of steps differs from a "validate first" reading of
the flow, the model follows the code. `createBooking` runs the availability
check and the venue lookup before anything looks at the range. Only the
booking schema's `endDate > startDate` validator rejects an inverted range,
at save time. So an inverted range can be reported as a conflict or as a
missing venue (`BookingController.InvertedRangeCheckedForConflictsFirst`).
`blockDates` never looks the venue up.

## Model

| member | source | states |
|---|---|---|
| Records.ParseStatus | models/Booking.js:8-12 | a status string is accepted exactly when it names one of `pending`, `confirmed`, `cancelled`, `completed`, and the accepted status spells that string |
| Records.StatusNameRoundTrip | models/Booking.js:10 | every status survives being stored as its string and read back |
| Records.ValidateBooking | models/Booking.js:3-20 | a booking saves iff venue, user, both dates and price are given, the status (if given) is in the enumeration and `endDate > startDate`; a missing status becomes `confirmed`; exactly the failing paths are reported, `status` for an out-of-enum status and `endDate` also when the start date is missing |
| Records.ValidateBlockedDate | models/BlockedDate.js:3-15 | a blocked period saves iff venue and both dates are given and `endDate > startDate`; reason and creator are carried over unchecked; exactly the failing paths are reported |
| Records.BlockedDateOptionalFields | models/BlockedDate.js:7-8 | whether a blocked period saves never depends on its reason or creator |
| Records.ValidateVenue | models/Venue.js:3-13 | a venue saves iff owner, a non-empty name and daily price are given, with those values and the assigned id; a body-supplied id is kept and otherwise the generated one is used; exactly the failing paths are reported, `name` also for an empty string |
| VenueService.CheckVenueAvailability | services/venueService.js:4-29 | a booking is reported iff it is of the venue, confirmed or pending, and strictly overlaps the range; a blocked period is reported iff it is of the venue and overlaps inclusively; `isAvailable` holds iff no record of either store conflicts |
| VenueService.ConflictMultiplicity | services/venueService.js:6-20 | each conflict list holds every conflicting record as many times as its store does, and nothing else |
| VenueService.BookingConflictsFollowStoreOrder | services/venueService.js:6-12 | the booking conflict list keeps store order: extending the booking store appends the new conflicts after the earlier ones, and the blocked-period list is unchanged |
| VenueService.BlockConflictsFollowStoreOrder | services/venueService.js:15-20 | the blocked-period conflict list keeps store order in the same way, and the booking list is unchanged |
| VenueService.StrictOverlapSymmetric | services/venueService.js:10 | the booking overlap relation is symmetric in its two intervals |
| VenueService.StrictImpliesInclusive | services/venueService.js:10-18 | every strict overlap is also an inclusive overlap |
| VenueService.TouchingBookingIsNoConflict | services/venueService.js:10 | a booking that ends where the request starts, or starts where it ends, is never reported |
| VenueService.TouchingBlockIsConflict | services/venueService.js:18-23 | a blocked period of the venue that only touches the request is reported and makes the venue unavailable |
| VenueService.IrrelevantRecordsIgnored | services/venueService.js:6-20 | adding bookings of other venues, cancelled or completed bookings, or blocked periods of other venues leaves the check's result unchanged |
| BookingController.CeilDiv | controllers/bookingController.js:31 | the quotient `q` brackets the dividend: `(q-1)*d < a <= q*d` |
| BookingController.BookedDays | controllers/bookingController.js:31 | the day count is the ceiling of the duration in days: `(days-1)*86400000 < end-start <= days*86400000`, and at least 1 for `start < end` |
| BookingController.TotalPrice | controllers/bookingController.js:31-32 | a stay of more than nothing and at most one day costs exactly one day's rate, and no stay costs less than one day's rate (see also `WholeDaysPrice`, `PartialDayChargedInFull`) |
| BookingController.CeilDivUnique | controllers/bookingController.js:31 | the ceiling is the only integer that brackets the dividend that way |
| BookingController.BookedDaysBounds | controllers/bookingController.js:31 | for `start < end` the day count is at least 1 and `(days-1)*86400000 < end-start <= days*86400000` |
| BookingController.WholeDaysPrice | controllers/bookingController.js:31-32 | exactly `k` whole days cost `k * pricePerDay` |
| BookingController.PriceExamples | controllers/bookingController.js:31-32 | one day at 100 costs 100; a day and a half at 100 costs 200 |
| BookingController.PartialDayChargedInFull | controllers/bookingController.js:31-32 | `k` days plus any fraction of a day cost `(k+1) * pricePerDay` |
| Database.FindVenue | controllers/bookingController.js:25-28 | the lookup finds nothing iff no stored venue has the id, and otherwise a stored venue with that id |
| Database.FindVenueUnique | controllers/bookingController.js:25-28 | when venue ids are unique, looking up a stored venue's id finds exactly that venue |
| BookingController.CreateBooking | controllers/bookingController.js:6-49 | rejected with both conflict lists iff the check reports a conflict; otherwise not-found iff no stored venue has the id; otherwise a save failure on `endDate` iff `end <= start`; otherwise, and exactly then, it succeeds: exactly one confirmed booking is appended, with the requester, the dates and the ceiling-day price, and nothing else in the store changes |
| BookingController.SecondOverlappingBookingRejected | controllers/bookingController.js:11-44 | after a booking is stored, a second request for a strictly overlapping range of the same venue is rejected as a conflict naming the first booking |
| BookingController.InvertedRangeNeverStored | controllers/bookingController.js:11-44 | a request with `end <= start` is always rejected |
| BookingController.InvertedRangeCheckedForConflictsFirst | controllers/bookingController.js:11-22 | an inverted range inside an active booking is rejected as a conflict, before any validation |
| BookingController.UserBookings | controllers/bookingController.js:54-56 | the result holds exactly the user's bookings with their multiplicities, ordered by start date descending |
| Database.FreshVenueId | controllers/venueController.js:19-22 | a new venue's id is mentioned by no stored venue, booking or blocked period |
| VenueController.CreateVenue | controllers/venueController.js:17-28 | the venue saves iff a non-empty name and a price are given and any body-supplied id is not already a stored venue's; the failing paths are exactly `name` (missing or empty) and `pricePerDay` (missing), never `owner`; a valid body whose id a stored venue has, and only that, is refused as a duplicate, so validation failures take precedence; the stored owner is always the requester; a supplied id is kept, and a generated one is mentioned by no stored record; the venue is appended and nothing else changes |
| VenueController.NewVenueStartsFree | controllers/venueController.js:19-23 | a venue created with a generated id has no bookings to list and is available for every range |
| VenueController.SuppliedIdInheritsBlocks | controllers/venueController.js:19-23 | a venue created under a body-supplied id inherits the blocked periods stored for that id and is unavailable across them |
| VenueController.OwnerFromBodyIgnored | controllers/venueController.js:19-22 | the outcome is the same whatever owner the request body names |
| VenueController.BlockDates | controllers/venueController.js:32-63 | rejected with both conflict lists iff some booking conflicts; otherwise a save failure on `endDate` iff `end <= start`; otherwise exactly one blocked period is appended with the venue, dates, reason and requester as creator, and existing periods are untouched |
| VenueController.BlockDecidedByBookingsOnly | controllers/venueController.js:37-48 | neither the stored blocked periods nor the existence of the venue affect whether a block is accepted |
| VenueController.OverlappingBlocksTolerated | controllers/venueController.js:43-58 | with no bookings of the venue, a block succeeds and the identical block succeeds again |
| VenueController.BlockTouchingBookingAccepted | controllers/venueController.js:37-43 | a block that at most touches the venue's active bookings is accepted, whatever cancelled or completed bookings overlap it |
| VenueController.VenueBookings | controllers/venueController.js:68-70 | the result holds exactly the venue's bookings, of every status, with their multiplicities, ordered by start date ascending |
| Invariants.CreateBookingPreservesConsistency | controllers/bookingController.js:11-44 | a booking request keeps every invariant: no two active bookings of a venue overlap, no active booking overlaps a blocked period of its venue, and every stored record has `start < end` |
| Invariants.BlockDatesPreservesConsistency | controllers/venueController.js:37-58 | a block request keeps the same invariants |
| Invariants.RunPreservesConsistency | controllers/bookingController.js:11-45 | any sequence of booking, block and venue requests, handled one at a time, keeps the invariants |
| Invariants.StepKeepsVenueIdsUnique | controllers/venueController.js:19-23 | no request makes two stored venues share an id |
| Invariants.RunKeepsVenueIdsUnique | controllers/venueController.js:19-23 | any sequence of requests, handled one at a time, keeps venue ids unique |
| Invariants.RunOnlyAppends | controllers/bookingController.js:35-45 | requests only append: every venue, booking and blocked period stored before is still there, unchanged and in place |
| Invariants.TouchingOrderMatters | services/venueService.js:10-18 | booking days 0-10 and then blocking days 10-20 both succeed; blocking first makes the same booking fail |

## Left out

- Concurrency. Both `createBooking` and `blockDates` check and then save with no lock. Two concurrent requests can both pass the check. The model handles requests one at a time, so the invariants are proved only for sequential handling. The race is not verified.
- Authentication and the owner role gate (`controllers/authController.js`, `middleware/auth.js`). The requester id is a parameter. The owner-only restriction on blocking, venue creation and venue listings is not modelled.
- Routing and server start-up (`app.js`, `routes/`).
- `getAllVenues` (controllers/venueController.js:7-14). It is a plain read of every venue, joined with owner names.
- `calculateBookingPrice` (services/venueService.js:31-34). Nothing calls it, and it refers to an undefined `pricePerDay`. The live pricing at controllers/bookingController.js:31-32 is modelled instead.
- Parsing of request dates into `Date`, including invalid dates (NaN). Instants are integer milliseconds. The booking request's venue id and dates and the block request's dates are taken as present; the venue body and the block's reason may omit fields.
- BookingController.CeilDiv: the division is exact integer ceiling division. The floating-point division inside `Math.ceil` is not modelled. It can round differently only for durations near the extreme end of the `Date` range.
- Number semantics of `pricePerDay` and `totalPrice`. Both are integers.
- Document ids are natural numbers. A generated venue id is one more than every id the store mentions, standing in for a generated ObjectId.
- Query result order: the `find` calls of services/venueService.js:6-20 have no sort. Their results are taken in insertion order, the natural order of a collection scan, which the store does not promise.
- Mongo specifics: query execution, `populate` joins, `createdAt`/`updatedAt` defaults, ids of bookings and blocked periods, cast errors for malformed ids, HTTP status codes and serialization. Storage failures other than validation are also left out.
- Venue fields the engine never reads: description, capacity, location, amenities.
- Listing.SortBy: the listings promise sortedness and the exact multiset of bookings. They do not promise an order among bookings with equal start dates. The store's sort does not fix that order either.
- Status transitions (cancel, complete). No code performs them. The four statuses exist only as values a stored booking may carry.

=== FILE: booking_controller.dfy ===
/** Reserving a venue: the availability check, the venue lookup, the price
    in whole days rounded up, and the save of a confirmed booking, in that
    order; and the requester's own bookings, latest first. */
module BookingController {
  import opened Options
  import opened Records
  import opened Seqs
  import opened VenueService
  import opened Database
  import Listing

  /** One day, in milliseconds. */
  const DAY_MS: int := 1000 * 60 * 60 * 24

  // ---------------------------------------------------------------- Pricing

  /** Division rounded towards positive infinity, for any sign of `a`. */
  function CeilDiv(a: int, d: int): (q: int)
    requires d > 0
    ensures (q - 1) * d < a <= q * d
  {
    var f := (-a) / d;
    assert -a == f * d + (-a) % d;
    -f
  }

  /** The ceiling is the only integer bracketing `a` this way. */
  lemma CeilDivUnique(a: int, d: int, k: int)
    requires d > 0
    requires (k - 1) * d < a <= k * d
    ensures k == CeilDiv(a, d)
  {
    var q := CeilDiv(a, d);
    if k < q {
      assert k * d <= (q - 1) * d by { MulMonotone(k, q - 1, d); }
    } else if k > q {
      assert q * d <= (k - 1) * d by { MulMonotone(q, k - 1, d); }
    }
  }

  lemma MulMonotone(x: int, y: int, d: int)
    requires x <= y && d > 0
    ensures x * d <= y * d
  {
    assert y * d - x * d == (y - x) * d;
  }

  /** The number of days charged for [start, end]: the duration in days,
      rounded up. */
  function BookedDays(start: Instant, end: Instant): (days: int)
    ensures (days - 1) * DAY_MS < end - start <= days * DAY_MS
    ensures start < end ==> days >= 1
  {
    CeilDiv(end - start, DAY_MS)
  }

  /** The price of [start, end]: every day begun is charged in full, so a
      stay of at most one day costs one day's rate, and no stay costs less. */
  function TotalPrice(start: Instant, end: Instant, pricePerDay: int): (price: int)
    ensures start < end <= start + DAY_MS ==> price == pricePerDay
    ensures start < end && pricePerDay >= 0 ==> price >= pricePerDay
  {
    var days := BookedDays(start, end);
    if start < end && pricePerDay > 0 then
      MulMonotone(1, days, pricePerDay);
      days * pricePerDay
    else
      days * pricePerDay
  }

  /** For a well-formed range the day count is at least one and is the
      ceiling of the duration in days. */
  lemma BookedDaysBounds(start: Instant, end: Instant)
    requires start < end
    ensures BookedDays(start, end) >= 1
    ensures (BookedDays(start, end) - 1) * DAY_MS < end - start <= BookedDays(start, end) * DAY_MS
  {
  }

  /** A span of exactly `k` whole days costs `k` days. */
  lemma WholeDaysPrice(start: Instant, k: int, pricePerDay: int)
    requires k >= 1
    ensures TotalPrice(start, start + k * DAY_MS, pricePerDay) == k * pricePerDay
  {
    assert (k - 1) * DAY_MS < k * DAY_MS;
    CeilDivUnique(k * DAY_MS, DAY_MS, k);
  }

  /** Any part of a further day is charged as a full day. */
  lemma PartialDayChargedInFull(start: Instant, k: int, extra: int, pricePerDay: int)
    requires k >= 0 && 0 < extra < DAY_MS
    ensures TotalPrice(start, start + k * DAY_MS + extra, pricePerDay) == (k + 1) * pricePerDay
  {
    assert (k + 1) * DAY_MS == k * DAY_MS + DAY_MS;
    CeilDivUnique(k * DAY_MS + extra, DAY_MS, k + 1);
  }

  /** One day at 100 costs 100; a day and a half costs 200. */
  lemma PriceExamples()
    ensures TotalPrice(0, DAY_MS, 100) == 100
    ensures TotalPrice(0, DAY_MS + DAY_MS / 2, 100) == 200
  {
    WholeDaysPrice(0, 1, 100);
    PartialDayChargedInFull(0, 1, DAY_MS / 2, 100);
  }

  // --------------------------------------------------------- createBooking

  /** The document the controller constructs for a new booking. */
  function NewBookingFields(venueId: VenueId, requester: UserId, start: Instant, end: Instant, totalPrice: int): BookingFields
  {
    BookingFields(Some(venueId), Some(requester), Some(start), Some(end), Some("confirmed"), Some(totalPrice))
  }

  /** Books `venueId` for [start, end] on behalf of `requester`. The range is
      checked for conflicts first, then the venue is looked up and the price
      computed; only the save rejects an inverted range. */
  function CreateBooking(st: Store, venueId: VenueId, requester: UserId, start: Instant, end: Instant): (r: Outcome<Booking>)
    ensures (r.Rejected? && r.error.Unavailable?) <==> !Check(st, venueId, start, end).isAvailable
    ensures r.Rejected? && r.error.Unavailable? ==> r.error.conflicts == Check(st, venueId, start, end).conflicts
    ensures (r.Rejected? && r.error.VenueNotFound?) <==>
      Check(st, venueId, start, end).isAvailable && forall v :: v in st.venues ==> v.id != venueId
    ensures (r.Rejected? && r.error.SaveFailed?) <==>
      Check(st, venueId, start, end).isAvailable && FindVenue(st.venues, venueId).Some? && end <= start
    ensures r.Rejected? && r.error.SaveFailed? ==> r.error.failedPaths == {"endDate"}
    ensures r.Created? <==>
      Check(st, venueId, start, end).isAvailable && FindVenue(st.venues, venueId).Some? && start < end
    ensures r.Created? ==>
      && r.store == st.(bookings := st.bookings + [r.value])
      && r.value.venue == venueId && r.value.user == requester
      && r.value.startDate == start && r.value.endDate == end
      && r.value.status == Confirmed
      && exists v :: v in st.venues && v.id == venueId
           && r.value.totalPrice == TotalPrice(start, end, FindVenue(st.venues, venueId).value.pricePerDay)
  {
    var report := Check(st, venueId, start, end);
    if !report.isAvailable then
      Rejected(Unavailable(report.conflicts))
    else
      match FindVenue(st.venues, venueId)
      case None => Rejected(VenueNotFound)
      case Some(venue) =>
        var totalPrice := TotalPrice(start, end, venue.pricePerDay);
        match ValidateBooking(NewBookingFields(venueId, requester, start, end, totalPrice))
        case Invalid(paths) => Rejected(SaveFailed(paths))
        case Valid(booking) => Created(st.(bookings := st.bookings + [booking]), booking)
  }

  /** Once a booking is stored, a second request for an overlapping range of
      the same venue is turned away, and the error names the first booking. */
  lemma SecondOverlappingBookingRejected(
    st: Store, venueId: VenueId, u1: UserId, s1: Instant, e1: Instant,
    u2: UserId, s2: Instant, e2: Instant)
    requires CreateBooking(st, venueId, u1, s1, e1).Created?
    requires StrictOverlap(s1, e1, s2, e2)
    ensures var first := CreateBooking(st, venueId, u1, s1, e1);
      var second := CreateBooking(first.store, venueId, u2, s2, e2);
      && second.Rejected? && second.error.Unavailable?
      && first.value in second.error.conflicts.bookings
  {
    var first := CreateBooking(st, venueId, u1, s1, e1);
    assert first.value in first.store.bookings;
  }

  /** An inverted or empty range is never stored, whichever step rejects it. */
  lemma InvertedRangeNeverStored(st: Store, venueId: VenueId, requester: UserId, start: Instant, end: Instant)
    requires end <= start
    ensures CreateBooking(st, venueId, requester, start, end).Rejected?
  {
  }

  /** The conflict check runs before the range is validated: an inverted
      range inside an active booking is reported as a conflict, not as a
      validation failure. */
  lemma InvertedRangeCheckedForConflictsFirst(venue: Venue, holder: UserId, requester: UserId)
    ensures var held := Booking(venue.id, holder, 0, 10 * DAY_MS, Confirmed, 1000);
      var r := CreateBooking(Store([venue], [held], []), venue.id, requester, 5 * DAY_MS, 4 * DAY_MS);
      r.Rejected? && r.error == Unavailable(Conflicts([held], []))
  {
    var held := Booking(venue.id, holder, 0, 10 * DAY_MS, Confirmed, 1000);
    var report := CheckVenueAvailability([held], [], venue.id, 5 * DAY_MS, 4 * DAY_MS);
    assert held in report.conflicts.bookings;
    assert report.conflicts.bookings == [held] by {
      FilterAppend((b: Booking) => BookingConflicts(b, venue.id, 5 * DAY_MS, 4 * DAY_MS), [], held);
      assert [] + [held] == [held];
    }
  }

  // ------------------------------------------------------- getUserBookings

  /** The requester's bookings, whatever their venue or status, latest start
      first. */
  function UserBookings(bookings: seq<Booking>, user: UserId): (r: seq<Booking>)
    ensures Listing.SortedBy(r, Listing.Descending)
    ensures forall b :: b in r <==> b in bookings && b.user == user
    ensures forall b :: multiset(r)[b] == if b.user == user then multiset(bookings)[b] else 0
  {
    var mine := Filter((b: Booking) => b.user == user, bookings);
    assert forall b :: multiset(mine)[b] == if b.user == user then multiset(bookings)[b] else 0 by {
      forall b: Booking {
        FilterCount((b: Booking) => b.user == user, bookings, b);
      }
    }
    Listing.SortBy(mine, Listing.Descending)
  }
}

=== FILE: database.dfy ===
/** The three collections the engine reads and writes, and the shape of a
    request's outcome: a new store with the created record, or an error
    that leaves the store as it was. */
module Database {
  import opened Options
  import opened Records
  import opened VenueService
  import opened Seqs

  /** Every collection is kept in insertion order; venues carry their own
      ids. */
  datatype Store = Store(venues: seq<Venue>, bookings: seq<Booking>, blocked: seq<BlockedDate>)

  /** Rejections a request can end in. `Unavailable` carries both conflict
      lists; `SaveFailed` carries the schema paths whose validator failed;
      `DuplicateId` is an insert refused by the unique index on ids. */
  datatype ApiError =
    | Unavailable(conflicts: Conflicts)
    | VenueNotFound
    | SaveFailed(failedPaths: set<Path>)
    | DuplicateId

  datatype Outcome<T> = Created(store: Store, value: T) | Rejected(error: ApiError)

  /** No two stored venues share an id, as the unique index on ids
      guarantees. */
  predicate UniqueVenueIds(venues: seq<Venue>)
  {
    forall i, j :: 0 <= i < j < |venues| ==> venues[i].id != venues[j].id
  }

  /** Venue lookup by id: the first stored venue with that id. */
  function FindVenue(venues: seq<Venue>, id: VenueId): (r: Option<Venue>)
    ensures r.None? <==> forall v :: v in venues ==> v.id != id
    ensures r.Some? ==> r.value in venues && r.value.id == id
  {
    if |venues| == 0 then None
    else if venues[0].id == id then Some(venues[0])
    else
      assert forall v :: v in venues ==> v == venues[0] || v in venues[1..];
      FindVenue(venues[1..], id)
  }

  /** With unique ids, the lookup finds every stored venue by its own id. */
  lemma {:induction false} FindVenueUnique(venues: seq<Venue>, v: Venue)
    requires UniqueVenueIds(venues) && v in venues
    ensures FindVenue(venues, v.id) == Some(v)
  {
    if venues[0] != v {
      var k :| 0 <= k < |venues| && venues[k] == v;
      assert k != 0 && venues[0].id != venues[k].id;
      assert venues[1..][k - 1] == v;
      FindVenueUnique(venues[1..], v);
    }
  }

  /** An id for a new venue that no stored venue, booking or blocked period
      mentions, as a newly generated document id would be. */
  function FreshVenueId(st: Store): (id: VenueId)
    ensures forall v :: v in st.venues ==> v.id != id
    ensures forall b :: b in st.bookings ==> b.venue != id
    ensures forall p :: p in st.blocked ==> p.venue != id
  {
    var m1 := MaxOf((v: Venue) => v.id, st.venues);
    var m2 := MaxOf((b: Booking) => b.venue, st.bookings);
    var m3 := MaxOf((p: BlockedDate) => p.venue, st.blocked);
    1 + (if m1 >= m2 && m1 >= m3 then m1 else if m2 >= m3 then m2 else m3)
  }

  /** The availability check against the store's two collections. */
  function Check(st: Store, venue: VenueId, start: Instant, end: Instant): AvailabilityReport
  {
    CheckVenueAvailability(st.bookings, st.blocked, venue, start, end)
  }
}

=== FILE: invariants.dfy ===
/** What the engine guarantees about the store when requests are handled one
    after another: no two active bookings of a venue overlap, no active
    booking overlaps a blocked period of its venue, every stored record
    satisfies its schema's date validator, and no two venues share an id. */
module Invariants {
  import opened Options
  import opened Records
  import opened VenueService
  import opened Database
  import opened BookingController
  import opened VenueController

  predicate NoDoubleBooking(bs: seq<Booking>)
  {
    forall i, j :: 0 <= i < |bs| && 0 <= j < |bs| && i != j
      && bs[i].venue == bs[j].venue && IsActive(bs[i].status) && IsActive(bs[j].status)
      ==> !StrictOverlap(bs[i].startDate, bs[i].endDate, bs[j].startDate, bs[j].endDate)
  }

  predicate BookingsClearOfBlocks(bs: seq<Booking>, ps: seq<BlockedDate>)
  {
    forall i, j :: 0 <= i < |bs| && 0 <= j < |ps|
      && bs[i].venue == ps[j].venue && IsActive(bs[i].status)
      ==> !StrictOverlap(bs[i].startDate, bs[i].endDate, ps[j].startDate, ps[j].endDate)
  }

  predicate RecordsWellFormed(st: Store)
  {
    && (forall i :: 0 <= i < |st.bookings| ==> st.bookings[i].startDate < st.bookings[i].endDate)
    && (forall j :: 0 <= j < |st.blocked| ==> st.blocked[j].startDate < st.blocked[j].endDate)
  }

  predicate Consistent(st: Store)
  {
    NoDoubleBooking(st.bookings) && BookingsClearOfBlocks(st.bookings, st.blocked) && RecordsWellFormed(st)
  }

  /** A request of one of the mutating operations, with the requester the
      authentication layer resolved. */
  datatype Request =
    | Book(venueId: VenueId, user: UserId, start: Instant, end: Instant)
    | Block(venueId: VenueId, user: UserId, start: Instant, end: Instant, reason: Option<string>)
    | NewVenue(body: VenueFields, user: UserId)

  /** The store after one request: the new store on success, the old one on
      any rejection. */
  function Step(st: Store, req: Request): Store
  {
    match req
    case Book(v, u, s, e) =>
      var r := CreateBooking(st, v, u, s, e);
      if r.Created? then r.store else st
    case Block(v, u, s, e, reason) =>
      var r := BlockDates(st, v, u, s, e, reason);
      if r.Created? then r.store else st
    case NewVenue(body, u) =>
      var r := CreateVenue(st, body, u);
      if r.Created? then r.store else st
  }

  /** The store after handling `reqs` in order. */
  function Run(st: Store, reqs: seq<Request>): Store
    decreases |reqs|
  {
    if |reqs| == 0 then st else Run(Step(st, reqs[0]), reqs[1..])
  }

  /** A successful booking keeps every invariant: the availability check
      found no active booking and no blocked period of the venue near the
      new range. */
  lemma CreateBookingPreservesConsistency(
    st: Store, venueId: VenueId, user: UserId, start: Instant, end: Instant)
    requires Consistent(st)
    ensures Consistent(Step(st, Book(venueId, user, start, end)))
  {
    var r := CreateBooking(st, venueId, user, start, end);
    if r.Created? {
      var bs := r.store.bookings;
      var n := |st.bookings|;
      assert bs == st.bookings + [r.value];
      forall i, j | 0 <= i < |bs| && 0 <= j < |bs| && i != j
        && bs[i].venue == bs[j].venue && IsActive(bs[i].status) && IsActive(bs[j].status)
        ensures !StrictOverlap(bs[i].startDate, bs[i].endDate, bs[j].startDate, bs[j].endDate)
      {
        if i == n {
          assert bs[j] in st.bookings;
        } else if j == n {
          assert bs[i] in st.bookings;
        }
      }
      forall i, j | 0 <= i < |bs| && 0 <= j < |st.blocked|
        && bs[i].venue == st.blocked[j].venue && IsActive(bs[i].status)
        ensures !StrictOverlap(bs[i].startDate, bs[i].endDate, st.blocked[j].startDate, st.blocked[j].endDate)
      {
        if i == n {
          assert st.blocked[j] in st.blocked;
        }
      }
    }
  }

  /** A successful block keeps every invariant: no active booking of the
      venue overlaps the new period. */
  lemma BlockDatesPreservesConsistency(
    st: Store, venueId: VenueId, user: UserId, start: Instant, end: Instant, reason: Option<string>)
    requires Consistent(st)
    ensures Consistent(Step(st, Block(venueId, user, start, end, reason)))
  {
    var r := BlockDates(st, venueId, user, start, end, reason);
    if r.Created? {
      var ps := r.store.blocked;
      var n := |st.blocked|;
      assert ps == st.blocked + [r.value];
      forall i, j | 0 <= i < |st.bookings| && 0 <= j < |ps|
        && st.bookings[i].venue == ps[j].venue && IsActive(st.bookings[i].status)
        ensures !StrictOverlap(st.bookings[i].startDate, st.bookings[i].endDate, ps[j].startDate, ps[j].endDate)
      {
        if j == n {
          assert st.bookings[i] in st.bookings;
        }
      }
    }
  }

  /** Every request keeps the store consistent. */
  lemma StepPreservesConsistency(st: Store, req: Request)
    requires Consistent(st)
    ensures Consistent(Step(st, req))
  {
    match req
    case Book(v, u, s, e) => CreateBookingPreservesConsistency(st, v, u, s, e);
    case Block(v, u, s, e, reason) => BlockDatesPreservesConsistency(st, v, u, s, e, reason);
    case NewVenue(body, u) =>
  }

  /** Handled one at a time, any sequence of requests keeps the store
      consistent; in particular no two active bookings of a venue overlap. */
  lemma {:induction false} RunPreservesConsistency(st: Store, reqs: seq<Request>)
    requires Consistent(st)
    ensures Consistent(Run(st, reqs))
    decreases |reqs|
  {
    if |reqs| != 0 {
      StepPreservesConsistency(st, reqs[0]);
      RunPreservesConsistency(Step(st, reqs[0]), reqs[1..]);
    }
  }

  /** Every request keeps venue ids unique: only venue creation adds a
      venue, and it refuses an id a stored venue has. */
  lemma StepKeepsVenueIdsUnique(st: Store, req: Request)
    requires UniqueVenueIds(st.venues)
    ensures UniqueVenueIds(Step(st, req).venues)
  {
    if req.NewVenue? {
      var r := CreateVenue(st, req.body, req.user);
      if r.Created? {
        var vs := r.store.venues;
        forall i, j | 0 <= i < j < |vs| ensures vs[i].id != vs[j].id {
          if j == |st.venues| {
            assert vs[i] in st.venues;
          }
        }
      }
    }
  }

  /** Handled one at a time, any sequence of requests keeps venue ids
      unique, so a lookup by id names one venue. */
  lemma {:induction false} RunKeepsVenueIdsUnique(st: Store, reqs: seq<Request>)
    requires UniqueVenueIds(st.venues)
    ensures UniqueVenueIds(Run(st, reqs).venues)
    decreases |reqs|
  {
    if |reqs| != 0 {
      StepKeepsVenueIdsUnique(st, reqs[0]);
      RunKeepsVenueIdsUnique(Step(st, reqs[0]), reqs[1..]);
    }
  }

  /** Requests only add records: every booking and blocked period stored
      before a run is still stored, unchanged and in place, after it. */
  lemma {:induction false} RunOnlyAppends(st: Store, reqs: seq<Request>)
    ensures var after := Run(st, reqs);
      && |st.bookings| <= |after.bookings| && after.bookings[..|st.bookings|] == st.bookings
      && |st.blocked| <= |after.blocked| && after.blocked[..|st.blocked|] == st.blocked
      && |st.venues| <= |after.venues| && after.venues[..|st.venues|] == st.venues
    decreases |reqs|
  {
    if |reqs| != 0 {
      var next := Step(st, reqs[0]);
      assert next.bookings[..|st.bookings|] == st.bookings;
      assert next.blocked[..|st.blocked|] == st.blocked;
      assert next.venues[..|st.venues|] == st.venues;
      RunOnlyAppends(next, reqs[1..]);
    }
  }

  /** The two overlap tests make the outcome depend on request order. A
      booking of day 0 to day 10 followed by a block of day 10 to day 20
      both succeed; the same block first makes the same booking fail. */
  lemma TouchingOrderMatters(venue: Venue, owner: UserId, customer: UserId)
    ensures var st := Store([venue], [], []);
      var book := Book(venue.id, customer, 0, 10 * DAY_MS);
      var block := Block(venue.id, owner, 10 * DAY_MS, 20 * DAY_MS, None);
      && |Run(st, [book, block]).bookings| == 1 && |Run(st, [book, block]).blocked| == 1
      && |Run(st, [block, book]).bookings| == 0 && |Run(st, [block, book]).blocked| == 1
  {
    var st := Store([venue], [], []);
    var book := Book(venue.id, customer, 0, 10 * DAY_MS);
    var block := Block(venue.id, owner, 10 * DAY_MS, 20 * DAY_MS, None);
    var booked := CreateBooking(st, venue.id, customer, 0, 10 * DAY_MS);
    assert booked.Created?;
    var afterBook := booked.store;
    assert Step(st, book) == afterBook;
    assert afterBook.bookings == [booked.value];
    var blocked := BlockDates(afterBook, venue.id, owner, 10 * DAY_MS, 20 * DAY_MS, None);
    assert blocked.Created?;
    assert Run(st, [book, block]) == blocked.store by {
      assert [book, block][1..] == [block];
      assert Run(afterBook, [block]) == Run(Step(afterBook, block), []);
    }
    var blockedFirst := BlockDates(st, venue.id, owner, 10 * DAY_MS, 20 * DAY_MS, None);
    assert blockedFirst.Created?;
    var afterBlock := blockedFirst.store;
    assert Step(st, block) == afterBlock;
    assert afterBlock.blocked[0] in afterBlock.blocked;
    var rejected := CreateBooking(afterBlock, venue.id, customer, 0, 10 * DAY_MS);
    assert rejected.Rejected?;
    assert Run(st, [block, book]) == afterBlock by {
      assert [block, book][1..] == [book];
      assert Run(afterBlock, [book]) == Run(Step(afterBlock, book), []);
    }
  }
}

=== FILE: listing.dfy ===
/** Ordering bookings by start date, for the two read-only listings. The
    store's sort promises an order on start dates only; bookings with equal
    start dates may come out in any order, so the contracts below fix
    nothing more than sortedness and the multiset of bookings. */
module Listing {
  import opened Records

  datatype Direction = Ascending | Descending

  predicate InOrder(a: Booking, b: Booking, dir: Direction)
  {
    match dir
    case Ascending => a.startDate <= b.startDate
    case Descending => a.startDate >= b.startDate
  }

  predicate SortedBy(s: seq<Booking>, dir: Direction)
  {
    forall i, j :: 0 <= i < j < |s| ==> InOrder(s[i], s[j], dir)
  }

  /** Places `x` into a sorted sequence. */
  function Insert(x: Booking, s: seq<Booking>, dir: Direction): (r: seq<Booking>)
    requires SortedBy(s, dir)
    ensures SortedBy(r, dir)
    ensures multiset(r) == multiset(s) + multiset{x}
  {
    if |s| == 0 then [x]
    else if InOrder(x, s[0], dir) then
      PrependSorted(x, s, dir);
      [x] + s
    else
      assert s == [s[0]] + s[1..];
      var rest := Insert(x, s[1..], dir);
      HeadBeforeInsert(s, x, rest, dir);
      PrependSorted(s[0], rest, dir);
      [s[0]] + rest
  }

  /** An element ordered before the first element of a sorted sequence can
      be put in front of it. */
  lemma PrependSorted(h: Booking, t: seq<Booking>, dir: Direction)
    requires SortedBy(t, dir)
    requires |t| == 0 || InOrder(h, t[0], dir)
    ensures SortedBy([h] + t, dir)
  {
    var r := [h] + t;
    forall i, j | 0 <= i < j < |r| ensures InOrder(r[i], r[j], dir) {
      if i == 0 && j > 1 {
        assert InOrder(t[0], t[j - 1], dir);
      }
    }
  }

  /** The head of a sorted sequence that `x` does not precede comes before
      the first element of the tail with `x` inserted. */
  lemma HeadBeforeInsert(s: seq<Booking>, x: Booking, rest: seq<Booking>, dir: Direction)
    requires |s| > 0 && SortedBy(s, dir) && !InOrder(x, s[0], dir)
    requires multiset(rest) == multiset(s[1..]) + multiset{x}
    ensures |rest| == 0 || InOrder(s[0], rest[0], dir)
  {
    if |rest| > 0 {
      var y := rest[0];
      assert y in multiset(rest);
      if y != x {
        assert y in s[1..];
        var k :| 0 <= k < |s[1..]| && s[1..][k] == y;
        assert s[k + 1] == y;
      }
    }
  }

  /** A sorted permutation of `s`. */
  function SortBy(s: seq<Booking>, dir: Direction): (r: seq<Booking>)
    ensures SortedBy(r, dir)
    ensures multiset(r) == multiset(s)
  {
    if |s| == 0 then []
    else
      assert s == [s[0]] + s[1..];
      Insert(s[0], SortBy(s[1..], dir), dir)
  }
}

=== FILE: options.dfy ===
/** A value that may be absent: an omitted request field or an unset
    optional schema path. */
module Options {

  datatype Option<+T> = None | Some(value: T)
}

=== FILE: records.dfy ===
/** The persisted record shapes: bookings, blocked periods and venues, the
    booking status enumeration, and the save-time validation each schema
    applies before a record reaches its collection. */
module Records {
  import opened Options

  /** An instant, in milliseconds since the epoch. */
  type Instant = int
  type VenueId = nat
  type UserId = nat

  /** The path names a schema reports when a record fails validation. */
  type Path = string

  datatype Status = Pending | Confirmed | Cancelled | Completed

  /** The status a booking takes when none is supplied. */
  const DefaultStatus: Status := Confirmed

  /** The stored spelling of each status. */
  function StatusName(s: Status): string
  {
    match s
    case Pending => "pending"
    case Confirmed => "confirmed"
    case Cancelled => "cancelled"
    case Completed => "completed"
  }

  /** Reads a stored status string; anything outside the enumeration is
      rejected. */
  function ParseStatus(name: string): (r: Option<Status>)
    ensures r.Some? ==> StatusName(r.value) == name
    ensures r.None? ==> forall s: Status :: StatusName(s) != name
  {
    if name == "pending" then Some(Pending)
    else if name == "confirmed" then Some(Confirmed)
    else if name == "cancelled" then Some(Cancelled)
    else if name == "completed" then Some(Completed)
    else None
  }

  lemma StatusNameRoundTrip(s: Status)
    ensures ParseStatus(StatusName(s)) == Some(s)
  {
  }

  /** The outcome of saving a record: the stored value, or every schema path
      whose validator failed. */
  datatype Validated<T> = Valid(value: T) | Invalid(failedPaths: set<Path>)

  function RequiredMissing<T>(path: Path, v: Option<T>): set<Path>
  {
    if v.None? then {path} else {}
  }

  /** The `endDate` validator `value > this.startDate`: a missing end date is
      reported by the required check instead, and a missing start date makes
      the comparison false. */
  function EndDateFailure(start: Option<Instant>, end: Option<Instant>): set<Path>
  {
    if end.None? || start.None? || end.value <= start.value then {"endDate"} else {}
  }

  // ---------------------------------------------------------------- Booking

  datatype Booking = Booking(
    venue: VenueId,
    user: UserId,
    startDate: Instant,
    endDate: Instant,
    status: Status,
    totalPrice: int)

  /** The fields a new booking document is constructed from; `None` is a
      field the constructor was not given. */
  datatype BookingFields = BookingFields(
    venue: Option<VenueId>,
    user: Option<UserId>,
    startDate: Option<Instant>,
    endDate: Option<Instant>,
    status: Option<string>,
    totalPrice: Option<int>)

  function BookingFailures(f: BookingFields): set<Path>
  {
    RequiredMissing("venue", f.venue)
    + RequiredMissing("user", f.user)
    + RequiredMissing("startDate", f.startDate)
    + EndDateFailure(f.startDate, f.endDate)
    + (if f.status.Some? && ParseStatus(f.status.value).None? then {"status"} else {})
    + RequiredMissing("totalPrice", f.totalPrice)
  }

  /** Saving a booking document: venue, user, both dates and the price are
      required, the status must be one of the enumeration (default
      `confirmed`), and the end date must lie after the start date. */
  function ValidateBooking(f: BookingFields): (r: Validated<Booking>)
    ensures r.Valid? <==>
      && f.venue.Some? && f.user.Some? && f.startDate.Some? && f.endDate.Some? && f.totalPrice.Some?
      && f.startDate.value < f.endDate.value
      && (f.status.None? || f.status.value in {"pending", "confirmed", "cancelled", "completed"})
    ensures r.Valid? ==>
      && r.value.venue == f.venue.value && r.value.user == f.user.value
      && r.value.startDate == f.startDate.value && r.value.endDate == f.endDate.value
      && r.value.totalPrice == f.totalPrice.value
      && r.value.startDate < r.value.endDate
    ensures r.Valid? && f.status.None? ==> r.value.status == Confirmed
    ensures r.Valid? && f.status.Some? ==> StatusName(r.value.status) == f.status.value
    ensures r.Invalid? ==>
      && r.failedPaths != {}
      && ("venue" in r.failedPaths <==> f.venue.None?)
      && ("user" in r.failedPaths <==> f.user.None?)
      && ("startDate" in r.failedPaths <==> f.startDate.None?)
      && ("endDate" in r.failedPaths <==>
            f.endDate.None? || f.startDate.None? || f.endDate.value <= f.startDate.value)
      && ("status" in r.failedPaths <==> f.status.Some? && ParseStatus(f.status.value).None?)
      && ("totalPrice" in r.failedPaths <==> f.totalPrice.None?)
      && r.failedPaths <= {"venue", "user", "startDate", "endDate", "status", "totalPrice"}
  {
    var failures := BookingFailures(f);
    if failures == {} then
      var status := if f.status.None? then DefaultStatus else ParseStatus(f.status.value).value;
      Valid(Booking(f.venue.value, f.user.value, f.startDate.value, f.endDate.value,
                    status, f.totalPrice.value))
    else
      Invalid(failures)
  }

  // ----------------------------------------------------------- BlockedDate

  /** A blocked period has no status: every stored one is in force. */
  datatype BlockedDate = BlockedDate(
    venue: VenueId,
    startDate: Instant,
    endDate: Instant,
    reason: Option<string>,
    createdBy: Option<UserId>)

  datatype BlockedDateFields = BlockedDateFields(
    venue: Option<VenueId>,
    startDate: Option<Instant>,
    endDate: Option<Instant>,
    reason: Option<string>,
    createdBy: Option<UserId>)

  function BlockedDateFailures(f: BlockedDateFields): set<Path>
  {
    RequiredMissing("venue", f.venue)
    + RequiredMissing("startDate", f.startDate)
    + EndDateFailure(f.startDate, f.endDate)
  }

  /** Saving a blocked period: venue and both dates are required and the end
      date must lie after the start date; reason and creator are optional
      and carried over unchecked. */
  function ValidateBlockedDate(f: BlockedDateFields): (r: Validated<BlockedDate>)
    ensures r.Valid? <==>
      f.venue.Some? && f.startDate.Some? && f.endDate.Some? && f.startDate.value < f.endDate.value
    ensures r.Valid? ==>
      && r.value.venue == f.venue.value
      && r.value.startDate == f.startDate.value && r.value.endDate == f.endDate.value
      && r.value.reason == f.reason && r.value.createdBy == f.createdBy
    ensures r.Invalid? ==>
      && r.failedPaths != {}
      && ("venue" in r.failedPaths <==> f.venue.None?)
      && ("startDate" in r.failedPaths <==> f.startDate.None?)
      && ("endDate" in r.failedPaths <==>
            f.endDate.None? || f.startDate.None? || f.endDate.value <= f.startDate.value)
      && r.failedPaths <= {"venue", "startDate", "endDate"}
  {
    var failures := BlockedDateFailures(f);
    if failures == {} then
      Valid(BlockedDate(f.venue.value, f.startDate.value, f.endDate.value, f.reason, f.createdBy))
    else
      Invalid(failures)
  }

  /** Whether a blocked period is saved never depends on its optional
      reason or creator. */
  lemma BlockedDateOptionalFields(f: BlockedDateFields, reason: Option<string>, createdBy: Option<UserId>)
    ensures ValidateBlockedDate(f).Valid?
        <==> ValidateBlockedDate(f.(reason := reason, createdBy := createdBy)).Valid?
  {
  }

  // ----------------------------------------------------------------- Venue

  /** The venue fields the availability engine needs; `id` is the document
      id the venue is stored under. */
  datatype Venue = Venue(id: VenueId, owner: UserId, name: string, pricePerDay: int)

  /** The fields a new venue document is constructed from; `id` is an `_id`
      the constructor was given, which takes the place of a generated one. */
  datatype VenueFields = VenueFields(
    id: Option<VenueId>,
    owner: Option<UserId>,
    name: Option<string>,
    pricePerDay: Option<int>)

  /** The required check of a string path, which an empty string fails. */
  function RequiredStringMissing(path: Path, v: Option<string>): set<Path>
  {
    if v.None? || |v.value| == 0 then {path} else {}
  }

  /** Saving a venue: owner, a non-empty name and the daily price are
      required. The document keeps a supplied id and otherwise takes
      `generated`. */
  function ValidateVenue(generated: VenueId, f: VenueFields): (r: Validated<Venue>)
    ensures r.Valid? <==> f.owner.Some? && f.name.Some? && f.name.value != "" && f.pricePerDay.Some?
    ensures r.Valid? ==>
      && r.value.owner == f.owner.value && r.value.name == f.name.value
      && r.value.pricePerDay == f.pricePerDay.value
    ensures r.Valid? && f.id.Some? ==> r.value.id == f.id.value
    ensures r.Valid? && f.id.None? ==> r.value.id == generated
    ensures r.Invalid? ==>
      && ("owner" in r.failedPaths <==> f.owner.None?)
      && ("name" in r.failedPaths <==> f.name.None? || f.name.value == "")
      && ("pricePerDay" in r.failedPaths <==> f.pricePerDay.None?)
      && r.failedPaths <= {"owner", "name", "pricePerDay"}
  {
    var failures := RequiredMissing("owner", f.owner)
      + RequiredStringMissing("name", f.name)
      + RequiredMissing("pricePerDay", f.pricePerDay);
    if failures == {} then
      var id := if f.id.Some? then f.id.value else generated;
      Valid(Venue(id, f.owner.value, f.name.value, f.pricePerDay.value))
    else
      Invalid(failures)
  }
}

=== FILE: seqs.dfy ===
/** Order-preserving filtering of sequences, the shape of every store query
    in the model. */
module Seqs {

  /** The elements of `s` satisfying `p`, in their original order. */
  function Filter<T(==,!new)>(p: T -> bool, s: seq<T>): (r: seq<T>)
    ensures |r| <= |s|
    ensures forall x :: x in r <==> x in s && p(x)
  {
    if |s| == 0 then []
    else
      var init, last := s[..|s| - 1], s[|s| - 1];
      assert s == init + [last];
      Filter(p, init) + (if p(last) then [last] else [])
  }

  /** Filtering keeps every satisfying element as often as the store holds
      it and drops every other one. */
  lemma {:induction false} FilterCount<T(!new)>(p: T -> bool, s: seq<T>, x: T)
    ensures multiset(Filter(p, s))[x] == if p(x) then multiset(s)[x] else 0
    decreases |s|
  {
    if |s| != 0 {
      var init, last := s[..|s| - 1], s[|s| - 1];
      assert s == init + [last];
      FilterCount(p, init, x);
    }
  }

  /** Filtering distributes over concatenation: the relative order of the
      kept elements is the order of the store. */
  lemma {:induction false} FilterConcat<T(!new)>(p: T -> bool, s: seq<T>, t: seq<T>)
    ensures Filter(p, s + t) == Filter(p, s) + Filter(p, t)
    decreases |t|
  {
    if |t| == 0 {
      assert s + t == s;
    } else {
      var init, last := t[..|t| - 1], t[|t| - 1];
      var tail := if p(last) then [last] else [];
      assert (s + t)[..|s + t| - 1] == s + init;
      assert (s + t)[|s + t| - 1] == last;
      calc {
        Filter(p, s + t);
        Filter(p, s + init) + tail;
        { FilterConcat(p, s, init); }
        Filter(p, s) + Filter(p, init) + tail;
        Filter(p, s) + Filter(p, t);
      }
    }
  }

  /** Appending one element extends the filtered sequence by at most that
      element and changes nothing before it. */
  lemma FilterAppend<T(!new)>(p: T -> bool, s: seq<T>, x: T)
    ensures Filter(p, s + [x]) == Filter(p, s) + (if p(x) then [x] else [])
  {
    assert (s + [x])[..|s|] == s;
  }

  /** An upper bound of `f` over `s`, reached by some element when `s` is
      not empty. */
  function MaxOf<T>(f: T -> nat, s: seq<T>): (m: nat)
    ensures forall x :: x in s ==> f(x) <= m
    ensures |s| > 0 ==> exists x :: x in s && f(x) == m
  {
    if |s| == 0 then 0
    else
      var rest := MaxOf(f, s[1..]);
      assert forall x :: x in s ==> x == s[0] || x in s[1..];
      if f(s[0]) >= rest then f(s[0]) else rest
  }
}

=== FILE: venue_controller.dfy ===
/** The owner-side operations: registering a venue, blocking a date range,
    and listing a venue's bookings, earliest first. Blocking shares the
    availability check with booking but lets only booking conflicts veto
    the request. */
module VenueController {
  import opened Options
  import opened Records
  import opened Seqs
  import opened VenueService
  import opened Database
  import Listing

  // ----------------------------------------------------------- createVenue

  /** Registers a venue from the request body; the owner is always the
      requester, whatever owner the body names. An id in the body is kept,
      and the insert is refused when a stored venue already has it; without
      one the venue gets an id no stored record mentions. */
  function CreateVenue(st: Store, body: VenueFields, requester: UserId): (r: Outcome<Venue>)
    ensures r.Created? <==>
      && body.name.Some? && body.name.value != "" && body.pricePerDay.Some?
      && (body.id.None? || forall v :: v in st.venues ==> v.id != body.id.value)
    ensures r.Created? ==>
      && r.store == st.(venues := st.venues + [r.value])
      && r.value.owner == requester
      && r.value.name == body.name.value && r.value.pricePerDay == body.pricePerDay.value
      && (forall v :: v in st.venues ==> v.id != r.value.id)
    ensures r.Created? && body.id.Some? ==> r.value.id == body.id.value
    ensures r.Created? && body.id.None? ==>
      && (forall b :: b in st.bookings ==> b.venue != r.value.id)
      && (forall p :: p in st.blocked ==> p.venue != r.value.id)
    ensures r.Rejected? ==> r.error.SaveFailed? || r.error.DuplicateId?
    ensures r.Rejected? && r.error.SaveFailed? ==>
      && "owner" !in r.error.failedPaths
      && ("name" in r.error.failedPaths <==> body.name.None? || body.name.value == "")
      && ("pricePerDay" in r.error.failedPaths <==> body.pricePerDay.None?)
      && r.error.failedPaths <= {"name", "pricePerDay"}
    ensures (r.Rejected? && r.error.DuplicateId?) <==>
      && body.name.Some? && body.name.value != "" && body.pricePerDay.Some?
      && body.id.Some? && exists v :: v in st.venues && v.id == body.id.value
    ensures r.Rejected? && r.error.DuplicateId? ==>
      body.id.Some? && exists v :: v in st.venues && v.id == body.id.value
  {
    match ValidateVenue(FreshVenueId(st), body.(owner := Some(requester)))
    case Invalid(paths) => Rejected(SaveFailed(paths))
    case Valid(venue) =>
      if FindVenue(st.venues, venue.id).Some? then Rejected(DuplicateId)
      else Created(st.(venues := st.venues + [venue]), venue)
  }

  /** A venue created with a generated id inherits nothing: no booking or
      blocked period stands in the way of any range, and it has no bookings
      to list. */
  lemma NewVenueStartsFree(st: Store, body: VenueFields, requester: UserId, start: Instant, end: Instant)
    requires CreateVenue(st, body, requester).Created?
    ensures var r := CreateVenue(st, body, requester);
      body.id.None? ==>
        && Check(r.store, r.value.id, start, end).isAvailable
        && VenueBookings(r.store.bookings, r.value.id) == []
  {
    var r := CreateVenue(st, body, requester);
    if body.id.None? {
      assert r.store.bookings == st.bookings && r.store.blocked == st.blocked;
      var listed := VenueBookings(st.bookings, r.value.id);
      assert multiset(listed) == multiset{};
    }
  }

  /** A venue created under an id the body supplies inherits the blocked
      periods already stored for that id, since blocking never looks the
      venue up. */
  lemma SuppliedIdInheritsBlocks(st: Store, body: VenueFields, requester: UserId, p: BlockedDate)
    requires p in st.blocked && p.startDate <= p.endDate
    requires body.id == Some(p.venue) && forall v :: v in st.venues ==> v.id != p.venue
    requires body.name.Some? && body.name.value != "" && body.pricePerDay.Some?
    ensures var r := CreateVenue(st, body, requester);
      && r.Created? && r.value.id == p.venue
      && !Check(r.store, p.venue, p.startDate, p.endDate).isAvailable
  {
    var r := CreateVenue(st, body, requester);
    assert p in Check(r.store, p.venue, p.startDate, p.endDate).conflicts.blockedDates;
  }

  /** An owner named in the body never reaches the stored venue. */
  lemma OwnerFromBodyIgnored(st: Store, body: VenueFields, claimed: Option<UserId>, requester: UserId)
    ensures CreateVenue(st, body.(owner := claimed), requester) == CreateVenue(st, body, requester)
  {
  }

  // ------------------------------------------------------------ blockDates

  /** The document the controller constructs for a new blocked period. */
  function NewBlockedDateFields(venueId: VenueId, start: Instant, end: Instant, reason: Option<string>, requester: UserId): BlockedDateFields
  {
    BlockedDateFields(Some(venueId), Some(start), Some(end), reason, Some(requester))
  }

  /** Blocks [start, end] of `venueId`. An active booking overlapping the
      range vetoes the block; overlapping blocked periods do not, and the
      venue is not looked up. */
  function BlockDates(st: Store, venueId: VenueId, requester: UserId, start: Instant, end: Instant, reason: Option<string>): (r: Outcome<BlockedDate>)
    ensures (r.Rejected? && r.error.Unavailable?) <==> |Check(st, venueId, start, end).conflicts.bookings| > 0
    ensures r.Rejected? && r.error.Unavailable? ==> r.error.conflicts == Check(st, venueId, start, end).conflicts
    ensures r.Created? <==>
      start < end && forall b :: b in st.bookings ==> !BookingConflicts(b, venueId, start, end)
    ensures r.Rejected? && !r.error.Unavailable? ==> r.error == SaveFailed({"endDate"})
    ensures r.Created? ==>
      && r.store == st.(blocked := st.blocked + [r.value])
      && r.value == BlockedDate(venueId, start, end, reason, Some(requester))
  {
    var report := Check(st, venueId, start, end);
    if !report.isAvailable && |report.conflicts.bookings| > 0 then
      assert report.conflicts.bookings[0] in report.conflicts.bookings;
      Rejected(Unavailable(report.conflicts))
    else
      match ValidateBlockedDate(NewBlockedDateFields(venueId, start, end, reason, requester))
      case Invalid(paths) => Rejected(SaveFailed(paths))
      case Valid(period) => Created(st.(blocked := st.blocked + [period]), period)
  }

  /** Whether a block is accepted depends on the bookings alone: neither the
      blocked periods already stored nor the venue store affect it. */
  lemma BlockDecidedByBookingsOnly(
    st: Store, venues: seq<Venue>, blocked: seq<BlockedDate>,
    venueId: VenueId, requester: UserId, start: Instant, end: Instant, reason: Option<string>)
    ensures BlockDates(st, venueId, requester, start, end, reason).Created?
        <==> BlockDates(st.(venues := venues, blocked := blocked), venueId, requester, start, end, reason).Created?
  {
  }

  /** A block may overlap, or repeat exactly, a period already blocked. */
  lemma OverlappingBlocksTolerated(st: Store, venueId: VenueId, requester: UserId, start: Instant, end: Instant, reason: Option<string>)
    requires start < end
    requires forall b :: b in st.bookings ==> b.venue != venueId
    ensures var first := BlockDates(st, venueId, requester, start, end, reason);
      && first.Created?
      && BlockDates(first.store, venueId, requester, start, end, reason).Created?
  {
  }

  /** A block that only touches an active booking at an end point is
      accepted, because the booking test is strict. */
  lemma BlockTouchingBookingAccepted(
    st: Store, venueId: VenueId, requester: UserId, start: Instant, end: Instant, reason: Option<string>)
    requires start < end
    requires forall b :: b in st.bookings && b.venue == venueId && IsActive(b.status) ==>
      b.startDate < b.endDate && (b.endDate <= start || b.startDate >= end)
    ensures BlockDates(st, venueId, requester, start, end, reason).Created?
  {
  }

  // ------------------------------------------------------ getVenueBookings

  /** All bookings of the venue, whatever their status, earliest start
      first. */
  function VenueBookings(bookings: seq<Booking>, venueId: VenueId): (r: seq<Booking>)
    ensures Listing.SortedBy(r, Listing.Ascending)
    ensures forall b :: b in r <==> b in bookings && b.venue == venueId
    ensures forall b :: multiset(r)[b] == if b.venue == venueId then multiset(bookings)[b] else 0
  {
    var ofVenue := Filter((b: Booking) => b.venue == venueId, bookings);
    assert forall b :: multiset(ofVenue)[b] == if b.venue == venueId then multiset(bookings)[b] else 0 by {
      forall b: Booking {
        FilterCount((b: Booking) => b.venue == venueId, bookings, b);
      }
    }
    Listing.SortBy(ofVenue, Listing.Ascending)
  }
}

=== FILE: venue_service.dfy ===
/** The availability check: which stored bookings and blocked periods of a
    venue stand in the way of a requested date range. The two collections
    use different overlap tests, and both are kept as the service states
    them. */
module VenueService {
  import opened Records
  import opened Seqs

  /** Only confirmed and pending bookings occupy a venue. */
  predicate IsActive(s: Status)
  {
    s == Confirmed || s == Pending
  }

  /** Strict overlap of [s1, e1] with [s2, e2]: intervals that only share an
      end point do not overlap. */
  predicate StrictOverlap(s1: Instant, e1: Instant, s2: Instant, e2: Instant)
  {
    s1 < e2 && e1 > s2
  }

  /** Inclusive overlap: intervals sharing an end point do overlap. */
  predicate InclusiveOverlap(s1: Instant, e1: Instant, s2: Instant, e2: Instant)
  {
    s1 <= e2 && e1 >= s2
  }

  /** The booking query: same venue, active status, strict overlap. */
  predicate BookingConflicts(b: Booking, venue: VenueId, start: Instant, end: Instant)
  {
    b.venue == venue && IsActive(b.status) && StrictOverlap(b.startDate, b.endDate, start, end)
  }

  /** The blocked-period query: same venue, inclusive overlap. */
  predicate BlockConflicts(p: BlockedDate, venue: VenueId, start: Instant, end: Instant)
  {
    p.venue == venue && InclusiveOverlap(p.startDate, p.endDate, start, end)
  }

  datatype Conflicts = Conflicts(bookings: seq<Booking>, blockedDates: seq<BlockedDate>)

  datatype AvailabilityReport = AvailabilityReport(isAvailable: bool, conflicts: Conflicts)

  /** The bookings of `bookings` that conflict with the requested range, in
      store order. */
  function ConflictingBookings(bookings: seq<Booking>, venue: VenueId, start: Instant, end: Instant): seq<Booking>
  {
    Filter(b => BookingConflicts(b, venue, start, end), bookings)
  }

  /** The blocked periods of `blocked` that conflict with the requested
      range, in store order. */
  function ConflictingBlocks(blocked: seq<BlockedDate>, venue: VenueId, start: Instant, end: Instant): seq<BlockedDate>
  {
    Filter(p => BlockConflicts(p, venue, start, end), blocked)
  }

  /** Reads both collections and reports the conflicts. The range is not
      required to be well formed: callers pass whatever they were given. */
  function CheckVenueAvailability(
    bookings: seq<Booking>, blocked: seq<BlockedDate>,
    venue: VenueId, start: Instant, end: Instant): (r: AvailabilityReport)
    ensures forall b :: b in r.conflicts.bookings <==>
      b in bookings && b.venue == venue && IsActive(b.status) && b.startDate < end && b.endDate > start
    ensures forall p :: p in r.conflicts.blockedDates <==>
      p in blocked && p.venue == venue && p.startDate <= end && p.endDate >= start
    ensures r.isAvailable <==>
      && (forall b :: b in bookings ==> !BookingConflicts(b, venue, start, end))
      && (forall p :: p in blocked ==> !BlockConflicts(p, venue, start, end))
  {
    var conflicting := ConflictingBookings(bookings, venue, start, end);
    var periods := ConflictingBlocks(blocked, venue, start, end);
    assert |conflicting| != 0 ==> conflicting[0] in conflicting;
    assert |periods| != 0 ==> periods[0] in periods;
    AvailabilityReport(|conflicting| == 0 && |periods| == 0, Conflicts(conflicting, periods))
  }

  /** Each conflict list holds every conflicting record exactly as often as
      its store does, and no other record. */
  lemma ConflictMultiplicity(
    bookings: seq<Booking>, blocked: seq<BlockedDate>,
    venue: VenueId, start: Instant, end: Instant, b: Booking, p: BlockedDate)
    ensures var c := CheckVenueAvailability(bookings, blocked, venue, start, end).conflicts;
      && multiset(c.bookings)[b] == (if BookingConflicts(b, venue, start, end) then multiset(bookings)[b] else 0)
      && multiset(c.blockedDates)[p] == (if BlockConflicts(p, venue, start, end) then multiset(blocked)[p] else 0)
  {
    FilterCount(b => BookingConflicts(b, venue, start, end), bookings, b);
    FilterCount(p => BlockConflicts(p, venue, start, end), blocked, p);
  }

  /** The booking conflicts keep store order: checking a booking store
      extended by `more` appends the conflicts among `more` to the earlier
      list, and leaves the blocked-period list as it was. */
  lemma BookingConflictsFollowStoreOrder(
    bookings: seq<Booking>, more: seq<Booking>, blocked: seq<BlockedDate>,
    venue: VenueId, start: Instant, end: Instant)
    ensures var before := CheckVenueAvailability(bookings, blocked, venue, start, end).conflicts;
      var added := CheckVenueAvailability(more, blocked, venue, start, end).conflicts;
      var after := CheckVenueAvailability(bookings + more, blocked, venue, start, end).conflicts;
      && after.bookings == before.bookings + added.bookings
      && after.blockedDates == before.blockedDates
  {
    FilterConcat(b => BookingConflicts(b, venue, start, end), bookings, more);
  }

  /** The blocked-period conflicts keep store order in the same way, and
      leave the booking list as it was. */
  lemma BlockConflictsFollowStoreOrder(
    bookings: seq<Booking>, blocked: seq<BlockedDate>, more: seq<BlockedDate>,
    venue: VenueId, start: Instant, end: Instant)
    ensures var before := CheckVenueAvailability(bookings, blocked, venue, start, end).conflicts;
      var added := CheckVenueAvailability(bookings, more, venue, start, end).conflicts;
      var after := CheckVenueAvailability(bookings, blocked + more, venue, start, end).conflicts;
      && after.blockedDates == before.blockedDates + added.blockedDates
      && after.bookings == before.bookings
  {
    FilterConcat(p => BlockConflicts(p, venue, start, end), blocked, more);
  }

  /** The booking overlap test does not depend on which interval is the
      stored one. */
  lemma StrictOverlapSymmetric(s1: Instant, e1: Instant, s2: Instant, e2: Instant)
    ensures StrictOverlap(s1, e1, s2, e2) <==> StrictOverlap(s2, e2, s1, e1)
  {
  }

  /** Inclusive overlap is implied by strict overlap, so anything that clears
      the blocked-period test also clears the booking test. */
  lemma StrictImpliesInclusive(s1: Instant, e1: Instant, s2: Instant, e2: Instant)
    ensures StrictOverlap(s1, e1, s2, e2) ==> InclusiveOverlap(s1, e1, s2, e2)
  {
  }

  /** A booking that ends exactly where the request starts, or starts exactly
      where it ends, is never reported. */
  lemma TouchingBookingIsNoConflict(
    bookings: seq<Booking>, blocked: seq<BlockedDate>,
    venue: VenueId, start: Instant, end: Instant, b: Booking)
    requires b.endDate == start || b.startDate == end
    ensures b !in CheckVenueAvailability(bookings, blocked, venue, start, end).conflicts.bookings
  {
  }

  /** A blocked period of the venue that merely touches the request at an
      end point is reported and makes the venue unavailable. */
  lemma TouchingBlockIsConflict(
    bookings: seq<Booking>, blocked: seq<BlockedDate>,
    venue: VenueId, start: Instant, end: Instant, p: BlockedDate)
    requires p in blocked && p.venue == venue
    requires start < end && p.startDate < p.endDate
    requires p.endDate == start || p.startDate == end
    ensures p in CheckVenueAvailability(bookings, blocked, venue, start, end).conflicts.blockedDates
    ensures !CheckVenueAvailability(bookings, blocked, venue, start, end).isAvailable
  {
  }

  /** Records of other venues, and cancelled or completed bookings, never
      affect the check. */
  lemma IrrelevantRecordsIgnored(
    bookings: seq<Booking>, blocked: seq<BlockedDate>,
    venue: VenueId, start: Instant, end: Instant, b: Booking, p: BlockedDate)
    requires b.venue != venue || b.status == Cancelled || b.status == Completed
    requires p.venue != venue
    ensures CheckVenueAvailability(bookings + [b], blocked + [p], venue, start, end)
         == CheckVenueAvailability(bookings, blocked, venue, start, end)
  {
    FilterAppend(b => BookingConflicts(b, venue, start, end), bookings, b);
    FilterAppend(p => BlockConflicts(p, venue, start, end), blocked, p);
  }
}
